=== FILE: README.md ===
# SQL SELECT metadata extraction, modelled in Dafny

The repository turns the text of a SQL `SELECT` query into `(table, alias,
column)` records. It does this in two independent ways, and both are modelled
here.

* **Regex strategy** (`sqlparser_regex.py`).
  * `extract_table_aliases` stores the targets of the `FROM` and `JOIN`
    patterns in a dictionary. The key is the alias, or the table name when
    there is no alias. The value is the table name.
  * `extract_columns` scans the SELECT clause with the column pattern
    `([\w.()]+)\s*(?:AS\s+(\w+))?`. It binds every column text to a table
    through the dictionary.
  * Within a column text, `func(q.col)` is recognised by
    `(\w+)\(([\w.]+)\)` and rewritten to `func(col)`.
  * The script then re-maps the records through the dictionary once more.
* **Token strategy** (`sqlparser.py`). `extract_sql_info` walks the
  statements `sqlparse` produces.
  * For every SELECT statement it first scans the top-level tokens for the
    tables after `FROM`, including the identifier after a JOIN keyword.
  * It adds them to a `tables` dictionary that lives across statements.
  * It then emits a record for every identifier, with the table its
    qualifier resolves to.
  * Two string helpers, `extract_table_alias` and `extract_column_alias`,
    cut identifiers into parts.

Files:

* `bindings.dfy` (module `Bindings`): the shared values.
  * Python's `None` is `Option`; a raised error is `Result`.
  * `Binding` is the record. `Resolve` is `d.get(q, q)`.
  * `Collect` gathers per-item results in order, stopping at the first error.
* `strings.dfy` (module `Strings`): the Python string behaviour the
  extractors rely on.
  * `str.isspace` and the classes `\s`, `\w`, `[\w.]`, `[\w.()]`.
  * `Run`, the extent of a greedy run of one class.
  * `str.upper` as far as keyword comparison needs it.
  * `str.split(sep)` (`SplitOn`) and `str.split()` (`Words`).
* `regex_extractor.dfy` (module `RegexExtractor`): the regex strategy.
  * The `findall` tuples of the FROM and JOIN patterns are inputs. So is
    group 1 of the first `search` match of the SELECT pattern, or none: only
    the first `SELECT … FROM` span is ever scanned for columns.
  * The column pattern and the function recogniser are written out as
    anchored matchers over suffixes of the text.
* `token_extractor.dfy` (module `TokenExtractor`): the token strategy.
  * The statements, with their type and classified top-level tokens, are
    inputs.
  * The loops of `extract_sql_info` are methods proved against prefix-fold
    functions (`ScanUpTo`, `StatementRecords`, `InfoOf`).

Where the code and the repository's documentation disagree, the model
follows the code:

* `tables` in `sqlparser.py` is never reset. An alias from an earlier
  statement therefore still resolves qualifiers in later statements
  (`TablesAccumulate`).
* Neither file splits a statement at `UNION`. The token strategy's JOIN
  keywords are `JOIN`, `INNER JOIN`, `LEFT JOIN`, `RIGHT JOIN` and
  `FULL JOIN`, without `OUTER JOIN`.
* The column loop of `sqlparser.py` visits every top-level identifier,
  including the table identifier after `FROM`, which therefore also comes
  out as a column record. An undotted one such as `table q` gives the bare
  record `(None, None, "table q")` (`AliasedSelectColumns`). A dotted one
  such as `s.t x` gives the column `t x` with qualifier `s` and table
  `get("s", "s")` (`ColumnAliasOfQualified`, `ColumnRecordBound`).

## Model

| member | source | states |
|---|---|---|
| RegexExtractor.ExtractTableAliases | sqlparser_regex.py:10-35 | the dictionary is the result of storing every FROM match and then every JOIN match, in order, each under its key |
| RegexExtractor.AliasMapOf | sqlparser_regex.py:13-28 | the dictionary built by the two loops, one match after the other; its keys, last-write-wins values and FROM-then-JOIN order are stated by `AliasMapKeys`, `AliasMapLastWins` and `AliasMapOfConcat` |
| RegexExtractor.AliasMapKeys | sqlparser_regex.py:13-28 | the dictionary's keys are exactly the keys of the matches |
| RegexExtractor.AliasMapLastWins | sqlparser_regex.py:13-28 | a key holds the table of the last match that produces it |
| RegexExtractor.AliasMapOfConcat | sqlparser_regex.py:21-28 | the JOIN entries overwrite the FROM entries: the result is the FROM dictionary updated with the JOIN dictionary |
| RegexExtractor.ColumnMatches | sqlparser_regex.py:52 | `findall` of the column pattern: the matches, left to right; the search tries each position and resumes after each match; what each tuple holds and how a rendered list is read back are stated by `ColumnMatchesWellFormed` and `ColumnMatchesOfRendered` |
| RegexExtractor.ColumnAt | sqlparser_regex.py:51 | the column pattern matches at a position exactly when a `[\w.()]` character stands there, and then consumes at least one character and never more than the text |
| RegexExtractor.AliasAtShape | sqlparser_regex.py:51 | the `AS` group captures a non-empty `\w` name |
| RegexExtractor.ColumnAtWellFormed | sqlparser_regex.py:51 | one match holds a non-empty `[\w.()]` column text and an empty or `\w` alias |
| RegexExtractor.ColumnMatchesWellFormed | sqlparser_regex.py:52 | every tuple `findall` returns is well formed in that sense |
| RegexExtractor.ColumnAtRendered | sqlparser_regex.py:51 | an item written as `col` or `col AS name`, followed by a comma or the end, is matched as exactly that item |
| RegexExtractor.ColumnMatchesOfRendered | sqlparser_regex.py:51-53 | scanning a select list written as `item, item, ...` gives back its items in order |
| RegexExtractor.CallAtShape | sqlparser_regex.py:58 | the anchored recogniser captures a non-empty `\w` name and a non-empty `[\w.]` reference, and the text starts with `name(ref)` |
| RegexExtractor.CallAtText | sqlparser_regex.py:58 | a text starting with `name(ref)` is recognised as that call |
| RegexExtractor.FindCall | sqlparser_regex.py:58 | `re.search` of the call pattern: the first position with an anchored match; stated by `FindCallLeftmost`, `FindCallInside` and `FindCallOfText` |
| RegexExtractor.FindCallLeftmost | sqlparser_regex.py:58 | the search returns the match at the leftmost position that has one, and nothing when no position does |
| RegexExtractor.FindCallInside | sqlparser_regex.py:57-59 | a text holding a call holds both parentheses, so the guard on line 57 never hides a call |
| RegexExtractor.FindCallOfText | sqlparser_regex.py:58 | a text that is exactly `name(ref)` is found as that call |
| RegexExtractor.SplitReference | sqlparser_regex.py:69 | the conditional two-way unpack of `split('.')`; stated by `SplitReferenceShape` |
| RegexExtractor.SplitReferenceShape | sqlparser_regex.py:69 | the two-way unpack succeeds exactly when the reference has at most one dot; an undotted reference is the column with no qualifier; a dotted one is `qualifier.column` with neither part dotted; otherwise the error names the reference |
| RegexExtractor.BindColumn | sqlparser_regex.py:57-73 | a bound record's table is always what its alias resolves to through the dictionary |
| RegexExtractor.BindQualified | sqlparser_regex.py:69-73 | `q.c` with no call in it gives `(get(q, q), q, c)` |
| RegexExtractor.BindUnqualified | sqlparser_regex.py:69-73 | an undotted `c` with no call in it gives `(None, None, c)` |
| RegexExtractor.BindCallQualified | sqlparser_regex.py:57-66 | `f(q.c)` gives `(get(q, q), q, "f(c)")` |
| RegexExtractor.BindCallUnqualified | sqlparser_regex.py:57-66 | `f(c)` gives `(None, None, "f(c)")` |
| RegexExtractor.BindFailsOnDots | sqlparser_regex.py:57-73 | binding raises exactly when the reference it unpacks has two or more dots: the call's reference when a call is found, the whole text otherwise |
| RegexExtractor.BindAllPointwise | sqlparser_regex.py:52-73 | one record per column match, in order, each the binding of the match's column text alone (the `AS` name is never read); otherwise the error of the first column that fails |
| RegexExtractor.ExtractColumns | sqlparser_regex.py:37-75 | no SELECT clause gives `[]`; otherwise the result is the ordered binding of the clause's column matches, stopping at the first unpack error |
| RegexExtractor.Remap | sqlparser_regex.py:104-107 | the final comprehension re-resolves every record's alias, keeping alias and column; stated by `RemapOfExtracted` |
| RegexExtractor.RemapOfExtracted | sqlparser_regex.py:104-107 | the re-map leaves every record of `extract_columns` unchanged |
| Strings.SplitOnJoin | sqlparser_regex.py:69 | `split('.')` pieces hold no dot, join back to the text, and number one more than the dots |
| Strings.SplitOn | sqlparser_regex.py:69 | `str.split(sep)`; its pieces and their number are stated by `SplitOnJoin`, `SplitOnFirst` and `SplitOnLast` |
| Strings.Upper | sqlparser.py:18 | `str.upper` keeps the length and maps every character by itself |
| Strings.Words | sqlparser.py:64 | `str.split()`; stated by `WordsShape` and `WordsOfSpaced` |
| Strings.WordsShape | sqlparser.py:64 | `split()` gives non-empty, whitespace-free words, and none exactly when the text is blank |
| Strings.WordsOfSpaced | sqlparser.py:64 | `split()` of words joined by single spaces gives the words back |
| TokenExtractor.TableAliasShape | sqlparser.py:62-70 | blank text gives `(None, None)`; otherwise a table word and, when present, an alias word |
| TokenExtractor.TableAliasOfSpaced | sqlparser.py:62-70 | one word gives `(word, None)`; two or more give `(first, last)`, dropping the middle words |
| TokenExtractor.ColumnAliasShape | sqlparser.py:72-77 | an undotted value is returned unchanged with `None`; a dotted value gives the text after its last dot and the text before its first dot, neither dotted |
| TokenExtractor.ColumnAliasOfQualified | sqlparser.py:72-77 | `q.c` with undotted parts gives `(c, q)` |
| TokenExtractor.ExtractTableAlias | sqlparser.py:62-70 | `extract_table_alias` on the identifier's text; stated by `TableAliasShape`, `TableAliasOfSpaced` and `TableAliasOfWords` |
| TokenExtractor.ExtractColumnAlias | sqlparser.py:72-77 | `extract_column_alias` on the identifier's text; stated by `ColumnAliasShape` and `ColumnAliasOfQualified` |
| TokenExtractor.TableEntryShape | sqlparser.py:26-28 | a blank identifier adds no entry; any other adds one, mapping a word to a word |
| TokenExtractor.TableEntryOfSpaced | sqlparser.py:31-33 | `table` and `table [AS] alias` are stored as `alias or table` mapped to `table` |
| TokenExtractor.NoFromNoAliases | sqlparser.py:17-22 | with no `FROM` token the scan never starts and stores nothing |
| TokenExtractor.Step | sqlparser.py:17-41 | one iteration of the table loop; `ScanUpTo` is the loop up to a position, and both are stated by `ScanTargets`, `JoinLookaheadRedundant` and `NoFromNoAliases` |
| TokenExtractor.ScanTargets | sqlparser.py:17-41 | without the JOIN lookahead, the loop up to any position has seen `FROM` exactly when a `FROM` token came before, and its `alias_map` is the result of storing, in token order, the identifier texts (list items flattened) that come after the first `FROM` and are not themselves `FROM` |
| TokenExtractor.StatementAliasesOfTargets | sqlparser.py:17-41 | when no identifier's text reads `FROM`, the statement's `alias_map` is exactly those targets stored in order |
| TokenExtractor.AddTablesConcat | sqlparser.py:25-33 | storing two runs of identifiers one after the other is storing their concatenation |
| TokenExtractor.AddTablesKeys | sqlparser.py:26-33 | the keys after storing a run are the earlier keys plus the key of every identifier with a table name |
| TokenExtractor.AddTablesLastWins | sqlparser.py:25-41 | a key holds the table of the last identifier of the run that produces it |
| TokenExtractor.AddTablesSourced | sqlparser.py:25-33 | every entry after storing a run was there before or is the `alias or table_name` entry of an identifier of the run |
| TokenExtractor.JoinLookaheadRedundant | sqlparser.py:35-41 | the JOIN lookahead adds nothing the identifier branch does not add again, unless the identifier's own text is `FROM` |
| TokenExtractor.ColumnRecordBound | sqlparser.py:55-58 | a column record has a non-empty, undotted column and the table its qualifier resolves to |
| TokenExtractor.ItemsRecordsBound | sqlparser.py:47-52 | the same for every record of an identifier list |
| TokenExtractor.StatementRecordsBound | sqlparser.py:46-58 | the same for every record of a statement |
| TokenExtractor.StatementRecords | sqlparser.py:46-58 | the records one statement's column loop emits, over its identifier texts with list items flattened; stated by `StatementRecordsBound`, `StatementRecordsConcat` and `ScanColumns` |
| TokenExtractor.StatementRecordsConcat | sqlparser.py:46-58 | records follow token order: the records of two runs of tokens are the first run's records followed by the second's |
| TokenExtractor.ItemsRecordsConcat | sqlparser.py:47-52 | an identifier list's records follow its items' order: two runs of items give the first run's records followed by the second's |
| TokenExtractor.TextsConcat | sqlparser.py:46-58 | the flattened identifier texts of two runs of tokens are the first run's texts followed by the second's |
| TokenExtractor.ExtractSqlInfo | sqlparser.py:4-60 | the records are those of the SELECT statements in order, each resolved through the tables known once that statement's tables are added |
| TokenExtractor.InfoOf | sqlparser.py:4-60 | the records and tables after a run of statements; stated by `ExtractSqlInfo`, `NonSelectIgnored`, `TablesAccumulate` and `RecordsShape` |
| TokenExtractor.ScanTables | sqlparser.py:13-41 | the table loop computes the statement's `alias_map` |
| TokenExtractor.StoreTable | sqlparser.py:26-28 | one identifier's entry is stored when it has a table name |
| TokenExtractor.ScanColumns | sqlparser.py:46-58 | the column loop emits the statement's records in token order |
| TokenExtractor.ScanItems | sqlparser.py:47-52 | an identifier list emits its items' records in list order |
| TokenExtractor.EmitColumn | sqlparser.py:55-58 | one identifier emits `(get(q, q), q, column)` when its column is non-empty, and nothing otherwise |
| TokenExtractor.NonSelectIgnored | sqlparser.py:9-11 | statements of another type contribute neither tables nor records |
| TokenExtractor.TablesAccumulate | sqlparser.py:7-43 | `tables` after a run of statements is the earlier tables overwritten by the later ones |
| TokenExtractor.RecordsShape | sqlparser.py:46-58 | every record has a non-empty, undotted column, and a table exactly when it has a qualifier |
| TokenExtractor.AliasedSelectAliases | sqlparser.py:17-41 | `SELECT q.c1, q.c2 FROM table q` maps `q` to `table` |
| TokenExtractor.AliasedSelectRecords | sqlparser.py:46-58 | the column loop of that query emits both columns under `table` and `q`, then the table identifier as a bare record |
| TokenExtractor.AliasedSelectColumns | sqlparser.py:4-60 | `extract_sql_info` on that query returns those three records |

## Left out

- `save_to_excel` in both files: pandas and Excel file output.
- The `print` debug output and the module-level example queries and script lines, apart from the re-map comprehension.
- `sqlparse.parse`, `get_type` and the grouping into `Identifier` / `IdentifierList` tokens belong to the `sqlparse` library. The statement type and the classified top-level tokens are inputs, and an identifier list carries the values of `get_identifiers()`.
- The FROM, JOIN and SELECT patterns of the regex strategy are not modelled. This covers `\b`, the non-greedy `.*?` and `DOTALL`. Their `findall` / `search` results are inputs: table matches as `(table, alias)` pairs with `""` for an absent alias, and the SELECT clause as an optional string.
- `\w` is modelled over ASCII only, while Python's `str` patterns also accept non-ASCII letters and digits.
- Strings.Upper: does not model full Unicode case mapping. It upper-cases the ASCII letters, dotless i and long s, and keeps every other character. Those are the only characters whose Python upper case is an ASCII letter, so comparisons with `FROM` and the JOIN keywords come out as in Python. Multi-character expansions such as `ß` to `SS` are not modelled.
- `column.strip()` on line 54 of `sqlparser_regex.py` is not modelled, because a column match never holds whitespace.
- TokenExtractor.StatementAliasesOfTargets: does not cover a statement with an identifier whose own text upper-cases to `FROM`. After a JOIN keyword the lookahead stores such an identifier although the identifier branch skips it, and no lemma states the `alias_map` that results. `JoinLookaheadRedundant` carries the same proviso.
- TokenExtractor.Step: the `lookahead` switch is not in the source, which always looks ahead. It is there only so that `JoinLookaheadRedundant` can compare the scan with and without that branch.
- UNION splitting and comma-in-function grouping are not implemented in either file and are not modelled.

=== FILE: bindings.dfy ===
/**
 * The values both extraction strategies share: optional strings (Python's
 * `None`), results that may carry an error, the `(table, alias, column)`
 * record, and the dictionary lookup `d.get(q, q)` that binds a qualifier.
 */
module Bindings {

  datatype Option<+T> = None | Some(value: T)

  datatype Result<+T, +E> = Ok(value: T) | Err(error: E)

  /** One extracted record: the owning table, the qualifier it was written with, the column text. */
  datatype Binding = Binding(table: Option<string>, alias: Option<string>, column: string)

  /**
   * `aliases.get(q, q)`: the mapped table when the qualifier is a key, the
   * qualifier itself otherwise. `None` is never a key of a `str`-keyed
   * dictionary, so an absent qualifier stays absent.
   */
  function Resolve(aliases: map<string, string>, q: Option<string>): Option<string>
  {
    match q
    case None => None
    case Some(k) => if k in aliases then Some(aliases[k]) else Some(k)
  }

  /** A record is bound through `aliases` when its table is what its qualifier resolves to. */
  predicate BoundThrough(aliases: map<string, string>, b: Binding)
  {
    b.table == Resolve(aliases, b.alias)
  }

  /** The values of `rs` in order when every one succeeds; the first error otherwise. */
  function Collect<T, E>(rs: seq<Result<T, E>>): Result<seq<T>, E>
  {
    if rs == [] then Ok([])
    else
      match Collect(rs[..|rs| - 1])
      case Err(e) => Err(e)
      case Ok(vs) =>
        match rs[|rs| - 1]
        case Err(e) => Err(e)
        case Ok(v) => Ok(vs + [v])
  }

  /** Once a prefix fails, the whole sequence fails with the same error. */
  lemma {:induction false} CollectErrorPersists<T, E>(rs: seq<Result<T, E>>, k: nat)
    requires k <= |rs| && Collect(rs[..k]).Err?
    ensures Collect(rs) == Collect(rs[..k])
    decreases |rs|
  {
    if k < |rs| {
      var prefix := rs[..|rs| - 1];
      assert prefix[..k] == rs[..k];
      CollectErrorPersists(prefix, k);
    } else {
      assert rs[..k] == rs;
    }
  }

  /**
   * `Collect` succeeds exactly when every element does, and then holds their
   * values in order; otherwise it holds the error of the first failing element.
   */
  lemma {:induction false} CollectPointwise<T, E>(rs: seq<Result<T, E>>)
    ensures Collect(rs).Ok? <==> forall i :: 0 <= i < |rs| ==> rs[i].Ok?
    ensures Collect(rs).Ok? ==>
      |Collect(rs).value| == |rs| && forall i :: 0 <= i < |rs| ==> Collect(rs).value[i] == rs[i].value
    ensures Collect(rs).Err? ==>
      exists i :: 0 <= i < |rs| && rs[i] == Err(Collect(rs).error) && forall j :: 0 <= j < i ==> rs[j].Ok?
  {
    if rs == [] {
      return;
    }
    var n := |rs| - 1;
    var prefix := rs[..n];
    CollectPointwise(prefix);
    assert forall i :: 0 <= i < n ==> prefix[i] == rs[i];
    match Collect(prefix) {
      case Err(e) =>
        var i :| 0 <= i < n && prefix[i] == Err(e) && forall j :: 0 <= j < i ==> prefix[j].Ok?;
        assert rs[i] == Err(e);
      case Ok(vs) =>
    }
  }
}

=== FILE: regex_extractor.dfy ===
/**
 * The regular-expression strategy (sqlparser_regex.py).
 *
 * The patterns that find the FROM targets, the JOIN targets and the SELECT
 * clause run inside the regex engine; their matches are this module's
 * inputs. What is modelled is what the code does with them: the alias
 * dictionary built from the matches, the scan of the SELECT clause into
 * column texts, the binding of each column text to a table (with the
 * `func(q.col)` rewrite), and the re-map comprehension applied to the result.
 */
module RegexExtractor {
  import opened Bindings
  import opened Strings

  // ---------------------------------------------------------------------------
  // Alias dictionary from FROM and JOIN matches

  /**
   * One `findall` tuple of the FROM or the JOIN pattern, without the JOIN
   * keyword group the code discards: the table text and the optional alias
   * group, which `findall` reports as "" when it did not take part.
   */
  datatype TableMatch = TableMatch(table: string, alias: string)

  /** The key a match is stored under: its alias when non-empty, its table name otherwise. */
  function KeyOf(t: TableMatch): string
  {
    if t.alias != "" then t.alias else t.table
  }

  /** The dictionary after storing `table` under `KeyOf` for each match in order. */
  function AliasMapOf(ts: seq<TableMatch>): map<string, string>
  {
    if ts == [] then map[]
    else
      var last := ts[|ts| - 1];
      AliasMapOf(ts[..|ts| - 1])[KeyOf(last) := last.table]
  }

  /** `extract_table_aliases`: every FROM match, then every JOIN match, stored in order. */
  method ExtractTableAliases(fromMatches: seq<TableMatch>, joinMatches: seq<TableMatch>)
    returns (tables: map<string, string>)
    ensures tables == AliasMapOf(fromMatches + joinMatches)
  {
    tables := map[];
    for i := 0 to |fromMatches|
      invariant tables == AliasMapOf(fromMatches[..i])
    {
      var m := fromMatches[i];
      if m.alias != "" {
        tables := tables[m.alias := m.table];
      } else {
        tables := tables[m.table := m.table];
      }
      AliasMapOfSnoc(fromMatches[..i], m);
      assert fromMatches[..i + 1] == fromMatches[..i] + [m];
    }
    assert fromMatches + joinMatches[..0] == fromMatches == fromMatches[..|fromMatches|];
    for j := 0 to |joinMatches|
      invariant tables == AliasMapOf(fromMatches + joinMatches[..j])
    {
      var m := joinMatches[j];
      if m.alias != "" {
        tables := tables[m.alias := m.table];
      } else {
        tables := tables[m.table := m.table];
      }
      AliasMapOfSnoc(fromMatches + joinMatches[..j], m);
      assert fromMatches + joinMatches[..j + 1] == (fromMatches + joinMatches[..j]) + [m];
    }
    assert joinMatches[..|joinMatches|] == joinMatches;
  }

  /** Storing one more match. */
  lemma AliasMapOfSnoc(ts: seq<TableMatch>, t: TableMatch)
    ensures AliasMapOf(ts + [t]) == AliasMapOf(ts)[KeyOf(t) := t.table]
  {
    assert (ts + [t])[..|ts|] == ts;
  }

  /** The keys of the dictionary are exactly the keys the matches produce. */
  lemma {:induction false} AliasMapKeys(ts: seq<TableMatch>)
    ensures AliasMapOf(ts).Keys == set i | 0 <= i < |ts| :: KeyOf(ts[i])
  {
    if ts != [] {
      var n := |ts| - 1;
      var prefix := ts[..n];
      AliasMapKeys(prefix);
      assert forall i :: 0 <= i < n ==> prefix[i] == ts[i];
      assert (set i | 0 <= i < |ts| :: KeyOf(ts[i]))
        == (set i | 0 <= i < n :: KeyOf(prefix[i])) + {KeyOf(ts[n])};
    }
  }

  /** Last write wins: a key holds the table of the last match that produces it. */
  lemma {:induction false} AliasMapLastWins(ts: seq<TableMatch>, i: nat)
    requires i < |ts|
    requires forall j :: i < j < |ts| ==> KeyOf(ts[j]) != KeyOf(ts[i])
    ensures KeyOf(ts[i]) in AliasMapOf(ts) && AliasMapOf(ts)[KeyOf(ts[i])] == ts[i].table
  {
    var n := |ts| - 1;
    if i < n {
      var prefix := ts[..n];
      assert forall j :: i <= j < n ==> prefix[j] == ts[j];
      AliasMapLastWins(prefix, i);
    }
  }

  /**
   * The FROM matches go in before the JOIN matches: the result is the FROM
   * dictionary overwritten by the JOIN dictionary.
   */
  lemma {:induction false} AliasMapOfConcat(a: seq<TableMatch>, b: seq<TableMatch>)
    ensures AliasMapOf(a + b) == AliasMapOf(a) + AliasMapOf(b)
    decreases |b|
  {
    if b == [] {
      assert a + b == a;
    } else {
      var b' := b[..|b| - 1];
      assert (a + b)[..|a + b| - 1] == a + b';
      assert (a + b)[|a + b| - 1] == b[|b| - 1];
      AliasMapOfConcat(a, b');
    }
  }

  // ---------------------------------------------------------------------------
  // Scanning the SELECT clause: findall of ([\w.()]+)\s*(?:AS\s+(\w+))?

  /** One `findall` tuple of the column pattern: the column text and the `AS` name, "" when absent. */
  datatype ColumnMatch = ColumnMatch(column: string, alias: string)

  /** A match together with the number of characters it consumed. */
  datatype Scanned = Scanned(m: ColumnMatch, len: nat)

  /** `A` and `S` under IGNORECASE (which also folds long s, U+017F, onto `s`). */
  predicate IsA(c: char) { c == 'a' || c == 'A' }

  predicate IsS(c: char) { c == 's' || c == 'S' || c as int == 0x17F }

  /** `AS\s+(\w+)` anchored at the start of `t`: the captured name and the length consumed. */
  datatype Named = Named(name: string, len: nat)

  function AliasAt(t: string): (r: Option<Named>)
    ensures r.Some? ==> 3 < r.value.len <= |t|
  {
    if |t| >= 2 && IsA(t[0]) && IsS(t[1]) then
      var sp := Run(t[2..], Space);
      var wd := Run(t[2 + sp..], Word);
      if sp > 0 && wd > 0 then Some(Named(t[2 + sp..2 + sp + wd], 2 + sp + wd)) else None
    else None
  }

  /** The captured name is a non-empty `\w` run. */
  lemma AliasAtShape(t: string)
    ensures AliasAt(t).Some? ==> AliasAt(t).value.name != [] && All(AliasAt(t).value.name, Word)
  {
    if AliasAt(t).Some? {
      var sp := Run(t[2..], Space);
      var wd := Run(t[2 + sp..], Word);
      RunStops(t[2 + sp..], Word);
      assert t[2 + sp..][..wd] == t[2 + sp..2 + sp + wd];
    }
  }

  /**
   * The column pattern anchored at the start of `t`. Every part is greedy and
   * stops where its class stops, so the first way the engine tries is the one
   * it reports: the whole `[\w.()]` run, the whitespace after it, and the
   * `AS name` group when it matches there.
   */
  function ColumnAt(t: string): (r: Option<Scanned>)
    ensures r.Some? <==> t != [] && In(t[0], Column)
    ensures r.Some? ==> 0 < r.value.len <= |t|
  {
    var e := Run(t, Column);
    if e == 0 then None else Some(ItemAfter(t[..e], t[e..]))
  }

  /** The rest of the pattern once the column text `col` has been taken and `rest` follows it. */
  function ItemAfter(col: string, rest: string): (sc: Scanned)
    ensures |col| <= sc.len <= |col| + |rest|
  {
    var sp := Run(rest, Space);
    match AliasAt(rest[sp..])
    case Some(named) => Scanned(ColumnMatch(col, named.name), |col| + sp + named.len)
    case None => Scanned(ColumnMatch(col, ""), |col| + sp)
  }

  /** `findall`: try the pattern at each position from the left, resuming after each match. */
  function ColumnMatches(s: string): seq<ColumnMatch>
    decreases |s|
  {
    if s == [] then []
    else
      match ColumnAt(s)
      case None => ColumnMatches(s[1..])
      case Some(sc) => [sc.m] + ColumnMatches(s[sc.len..])
  }

  /** What the column pattern can capture: a non-empty `[\w.()]` text and an empty or `\w` alias. */
  predicate WellFormed(m: ColumnMatch)
  {
    m.column != [] && All(m.column, Column) && All(m.alias, Word)
  }

  /** Every match of the scan is well formed. */
  lemma {:induction false} ColumnMatchesWellFormed(s: string)
    ensures forall i :: 0 <= i < |ColumnMatches(s)| ==> WellFormed(ColumnMatches(s)[i])
    decreases |s|
  {
    if s != [] {
      match ColumnAt(s)
      case None => ColumnMatchesWellFormed(s[1..]);
      case Some(sc) =>
        ColumnAtWellFormed(s);
        ColumnMatchesWellFormed(s[sc.len..]);
        var rest := ColumnMatches(s[sc.len..]);
        assert ColumnMatches(s) == [sc.m] + rest;
    }
  }

  /** One anchored match is well formed. */
  lemma ColumnAtWellFormed(t: string)
    ensures ColumnAt(t).Some? ==> WellFormed(ColumnAt(t).value.m)
  {
    var e := Run(t, Column);
    if e > 0 {
      RunStops(t, Column);
      var rest := t[e..];
      AliasAtShape(rest[Run(rest, Space)..]);
    }
  }

  /** A select item as it is written: the column text, then ` AS name` when it has an alias. */
  function Rendered(m: ColumnMatch): string
  {
    m.column + (if m.alias == "" then "" else " AS " + m.alias)
  }

  /** Select items written one after another, separated by `, `. */
  function RenderedList(ms: seq<ColumnMatch>): string
  {
    if ms == [] then ""
    else if |ms| == 1 then Rendered(ms[0])
    else Rendered(ms[0]) + ", " + RenderedList(ms[1..])
  }

  /** `AS name` followed by a comma or the end: the group captures exactly `name`. */
  lemma AliasAtWritten(a: string, tail: string)
    requires a != [] && All(a, Word)
    requires tail == [] || tail[0] == ','
    ensures AliasAt("AS " + a + tail) == Some(Named(a, 3 + |a|))
  {
    var u := "AS " + a + tail;
    assert u[2..] == " " + (a + tail);
    RunOfConcat(" ", a + tail, Space);
    assert u[3..] == a + tail;
    RunOfConcat(a, tail, Word);
    assert u[3..3 + |a|] == a;
  }

  /** An item without alias, followed by a comma or the end. */
  lemma ColumnAtPlain(col: string, tail: string, t: string, sc: Scanned)
    requires col != [] && All(col, Column)
    requires tail == [] || tail[0] == ','
    requires t == col + tail
    requires sc == Scanned(ColumnMatch(col, ""), |col|)
    ensures ColumnAt(t) == Some(sc)
  {
    RunOfConcat(col, tail, Column);
    assert t[..|col|] == col;
    assert t[|col|..] == tail;
    assert Run(tail, Space) == 0;
    assert AliasAt(tail) == None;
  }

  /** An item with an alias, followed by a comma or the end. */
  lemma ColumnAtAliased(col: string, a: string, tail: string, t: string, sc: Scanned)
    requires col != [] && All(col, Column)
    requires a != [] && All(a, Word)
    requires tail == [] || tail[0] == ','
    requires t == col + " AS " + a + tail
    requires sc == Scanned(ColumnMatch(col, a), |col| + 4 + |a|)
    ensures ColumnAt(t) == Some(sc)
  {
    var u := "AS " + a + tail;
    assert t == col + (" " + u);
    RunOfConcat(col, " " + u, Column);
    assert t[..|col|] == col;
    assert t[|col|..] == " " + u;
    ItemAfterAliased(col, u, a, tail);
  }

  lemma ItemAfterAliased(col: string, u: string, a: string, tail: string)
    requires a != [] && All(a, Word)
    requires tail == [] || tail[0] == ','
    requires u == "AS " + a + tail
    ensures ItemAfter(col, " " + u) == Scanned(ColumnMatch(col, a), |col| + 4 + |a|)
  {
    RunOfConcat(" ", u, Space);
    assert (" " + u)[1..] == u;
    AliasAtWritten(a, tail);
  }

  /** The anchored pattern takes exactly one written item when a comma or the end follows it. */
  lemma ColumnAtRendered(m: ColumnMatch, tail: string)
    requires WellFormed(m)
    requires tail == [] || tail[0] == ','
    ensures ColumnAt(Rendered(m) + tail) == Some(Scanned(m, |Rendered(m)|))
  {
    RenderedText(m, tail);
    if m.alias == "" {
      ColumnAtPlain(m.column, tail, Rendered(m) + tail, Scanned(m, |Rendered(m)|));
    } else {
      ColumnAtAliased(m.column, m.alias, tail, Rendered(m) + tail, Scanned(m, |Rendered(m)|));
    }
  }

  lemma RenderedText(m: ColumnMatch, tail: string)
    ensures m.alias == "" ==> Rendered(m) + tail == m.column + tail && |Rendered(m)| == |m.column|
    ensures m.alias != "" ==>
      Rendered(m) + tail == m.column + " AS " + m.alias + tail && |Rendered(m)| == |m.column| + 4 + |m.alias|
  {
  }

  /** The scan skips a `, ` separator. */
  lemma SkipSeparator(rest: string)
    ensures ColumnMatches(", " + rest) == ColumnMatches(rest)
  {
    var s := ", " + rest;
    assert Run(s, Column) == 0;
    assert ColumnAt(s) == None;
    assert s[1..] == " " + rest;
    assert Run(s[1..], Column) == 0;
    assert ColumnAt(s[1..]) == None;
    assert (" " + rest)[1..] == rest;
  }

  /** Scanning a written select list gives back the items it was written from, in order. */
  lemma {:induction false} ColumnMatchesOfRendered(ms: seq<ColumnMatch>)
    requires forall i :: 0 <= i < |ms| ==> WellFormed(ms[i])
    ensures ColumnMatches(RenderedList(ms)) == ms
  {
    if ms == [] {
    } else if |ms| == 1 {
      ColumnAtRendered(ms[0], []);
      assert RenderedList(ms) == Rendered(ms[0]) + [];
      assert RenderedList(ms)[|Rendered(ms[0])|..] == [];
    } else {
      var r := Rendered(ms[0]);
      var rest := RenderedList(ms[1..]);
      var s := RenderedList(ms);
      assert s == r + (", " + rest);
      ColumnAtRendered(ms[0], ", " + rest);
      assert s[|r|..] == ", " + rest;
      SkipSeparator(rest);
      ColumnMatchesOfRendered(ms[1..]);
    }
  }

  // ---------------------------------------------------------------------------
  // The function recogniser: re.search of (\w+)\(([\w.]+)\)

  /** A recognised call: the function name and the reference inside the parentheses. */
  datatype Call = Call(name: string, ref: string)

  /** The text a recognised call spans. */
  function CallText(c: Call): string
  {
    c.name + "(" + c.ref + ")"
  }

  /**
   * `(\w+)\(([\w.]+)\)` anchored at the start of `t`. Each run is greedy and
   * the character that must follow it lies outside its class, so shortening
   * a run can never make the pattern match: the anchored match, if any, is
   * the one below.
   */
  function CallAt(t: string): Option<Call>
  {
    var n := Run(t, Word);
    if 0 < n < |t| && t[n] == '(' then
      var k := Run(t[n + 1..], Ref);
      if 0 < k && n + 1 + k < |t| && t[n + 1 + k] == ')' then
        Some(Call(t[..n], t[n + 1..n + 1 + k]))
      else None
    else None
  }

  /** What the anchored pattern recognises is a name and a reference, written at the start of `t`. */
  lemma CallAtShape(t: string)
    ensures var r := CallAt(t); r.Some? ==>
      r.value.name != [] && All(r.value.name, Word) && r.value.ref != [] && All(r.value.ref, Ref)
      && |CallText(r.value)| <= |t| && t[..|CallText(r.value)|] == CallText(r.value)
  {
    if CallAt(t).Some? {
      var n := Run(t, Word);
      var k := Run(t[n + 1..], Ref);
      RunStops(t, Word);
      RunStops(t[n + 1..], Ref);
      var c := CallAt(t).value;
      assert forall i :: 0 <= i < k ==> c.ref[i] == t[n + 1..][i];
      assert t[..|CallText(c)|] == CallText(c);
    }
  }

  /** `re.search`: the anchored match at the leftmost position that has one. */
  function FindCall(s: string): Option<Call>
    decreases |s|
  {
    if s == [] then None
    else if CallAt(s).Some? then CallAt(s)
    else FindCall(s[1..])
  }

  /** A call written at the start of a text is what the anchored pattern finds there. */
  lemma CallAtText(c: Call, tail: string)
    requires c.name != [] && All(c.name, Word) && c.ref != [] && All(c.ref, Ref)
    ensures CallAt(CallText(c) + tail) == Some(c)
  {
    CallAtWritten(c.name, c.ref, tail, CallText(c) + tail, c);
  }

  lemma CallAtWritten(name: string, ref: string, tail: string, t: string, c: Call)
    requires name != [] && All(name, Word) && ref != [] && All(ref, Ref)
    requires t == name + ("(" + ref + ")" + tail)
    requires c == Call(name, ref)
    ensures CallAt(t) == Some(c)
  {
    var n := |name|;
    RunOfConcat(name, "(" + ref + ")" + tail, Word);
    assert t[n + 1..] == ref + (")" + tail);
    RunOfConcat(ref, ")" + tail, Ref);
    assert t[..n] == name;
    assert t[n + 1..n + 1 + |ref|] == ref;
  }

  /**
   * `FindCall` is the leftmost search: when it finds a call, the anchored
   * pattern matches at some position and at none before it; when it finds
   * none, the anchored pattern matches nowhere.
   */
  lemma {:induction false} FindCallLeftmost(s: string)
    ensures FindCall(s).None? ==> forall p :: 0 <= p < |s| ==> CallAt(s[p..]).None?
    ensures FindCall(s).Some? ==>
      exists p :: 0 <= p < |s| && CallAt(s[p..]) == FindCall(s)
        && forall q :: 0 <= q < p ==> CallAt(s[q..]).None?
    decreases |s|
  {
    if s == [] {
      return;
    }
    if CallAt(s).Some? {
      assert s[0..] == s;
      return;
    }
    var t := s[1..];
    FindCallLeftmost(t);
    if FindCall(s).Some? {
      var p :| 0 <= p < |t| && CallAt(t[p..]) == FindCall(t)
        && forall q :: 0 <= q < p ==> CallAt(t[q..]).None?;
      assert s[p + 1..] == t[p..];
      forall q | 0 <= q < p + 1
        ensures CallAt(s[q..]).None?
      {
        if q > 0 {
          assert s[q..] == t[q - 1..];
        } else {
          assert s[0..] == s;
        }
      }
    } else {
      forall p | 0 <= p < |s|
        ensures CallAt(s[p..]).None?
      {
        if p > 0 {
          assert s[p..] == t[p - 1..];
        } else {
          assert s[0..] == s;
        }
      }
    }
  }

  /** A recognised call lies inside the text, so the text holds both parentheses. */
  lemma FindCallInside(s: string)
    requires FindCall(s).Some?
    ensures '(' in s && ')' in s
  {
    var p := FindCallPosition(s);
    var u := s[p..];
    CallAtParens(u, FindCall(s).value);
    var i :| 0 <= i < |u| && u[i] == '(';
    var j :| 0 <= j < |u| && u[j] == ')';
    assert u[i] == s[p + i] && u[j] == s[p + j];
  }

  /** Where the search found its call. */
  lemma {:induction false} FindCallPosition(s: string) returns (p: nat)
    requires FindCall(s).Some?
    ensures p < |s| && CallAt(s[p..]) == FindCall(s)
    decreases |s|
  {
    if CallAt(s).Some? {
      assert s[0..] == s;
      p := 0;
    } else {
      var q := FindCallPosition(s[1..]);
      assert s[q + 1..] == s[1..][q..];
      p := q + 1;
    }
  }

  lemma CallAtParens(u: string, c: Call)
    requires CallAt(u) == Some(c)
    ensures '(' in u && ')' in u
  {
    CallAtShape(u);
    var t := CallText(c);
    assert u[..|t|] == t;
    assert t[|c.name|] == '(' && t[|t| - 1] == ')';
    assert u[|c.name|] == '(' && u[|t| - 1] == ')';
  }

  // ---------------------------------------------------------------------------
  // Binding one column

  /** The ValueError a two-way unpack raises when `split('.')` gives more than two pieces. */
  datatype UnpackError = TooManyValues(reference: string)

  /**
   * `ref.split('.') if '.' in ref else (None, ref)`, unpacked into
   * (qualifier, column): fails exactly when the reference holds more than
   * one dot, and otherwise cuts it at its one dot.
   */
  function SplitReference(ref: string): Result<(Option<string>, string), UnpackError>
  {
    if '.' in ref then
      var parts := SplitOn(ref, '.');
      if |parts| == 2 then Ok((Some(parts[0]), parts[1]))
      else Err(TooManyValues(ref))
    else Ok((None, ref))
  }

  lemma SplitReferenceShape(ref: string)
    ensures var r := SplitReference(ref);
      && (r.Ok? <==> multiset(ref)['.'] <= 1)
      && (r.Ok? && r.value.0.None? ==> '.' !in ref && r.value.1 == ref)
      && (r.Ok? && r.value.0.Some? ==>
            ref == r.value.0.value + "." + r.value.1 && '.' !in r.value.0.value && '.' !in r.value.1)
      && (r.Err? ==> r.error == TooManyValues(ref))
  {
    if '.' in ref {
      var parts := SplitOn(ref, '.');
      SplitOnJoin(ref, '.');
      if |parts| == 2 {
        assert parts[0] in parts && parts[1] in parts;
      }
    }
  }

  /**
   * One column text turned into a record, as `extract_columns` does for each
   * match; `Err` where the code raises. The record's table is always the
   * resolution of its alias.
   */
  function BindColumn(column: string, tableAliases: map<string, string>): (r: Result<Binding, UnpackError>)
    ensures r.Ok? ==> BoundThrough(tableAliases, r.value)
  {
    var call := if '(' in column && ')' in column then FindCall(column) else None;
    match call
    case Some(c) =>
      (match SplitReference(c.ref)
       case Err(e) => Err(e)
       case Ok((q, col)) => Ok(Binding(Resolve(tableAliases, q), q, c.name + "(" + col + ")")))
    case None =>
      match SplitReference(column)
      case Err(e) => Err(e)
      case Ok((q, col)) => Ok(Binding(Resolve(tableAliases, q), q, col))
  }

  /** `q.c` with no call in it: table `get(q, q)`, alias `q`, column `c`. */
  lemma BindQualified(q: string, c: string, tableAliases: map<string, string>)
    requires '.' !in q && '.' !in c
    requires FindCall(q + "." + c).None?
    ensures BindColumn(q + "." + c, tableAliases) == Ok(Binding(Resolve(tableAliases, Some(q)), Some(q), c))
  {
    SplitOnOne(q, c, '.');
  }

  /** An undotted column with no call in it: no table, no alias, the text as column. */
  lemma BindUnqualified(c: string, tableAliases: map<string, string>)
    requires '.' !in c
    requires FindCall(c).None?
    ensures BindColumn(c, tableAliases) == Ok(Binding(None, None, c))
  {
  }

  /** A text that is exactly one call is recognised as that call. */
  lemma FindCallOfText(c: Call)
    requires c.name != [] && All(c.name, Word) && c.ref != [] && All(c.ref, Ref)
    ensures FindCall(CallText(c)) == Some(c)
    ensures '(' in CallText(c) && ')' in CallText(c)
  {
    var s := CallText(c);
    CallAtText(c, []);
    assert s + [] == s;
    assert s[|c.name|] == '(';
    assert s[|s| - 1] == ')';
  }

  /** `f(q.c)`: table `get(q, q)`, alias `q`, column rewritten to `f(c)`. */
  lemma BindCallQualified(f: string, q: string, c: string, tableAliases: map<string, string>)
    requires f != [] && All(f, Word) && All(q, Word) && All(c, Word)
    ensures BindColumn(f + "(" + q + "." + c + ")", tableAliases)
         == Ok(Binding(Resolve(tableAliases, Some(q)), Some(q), f + "(" + c + ")"))
  {
    var ref := q + "." + c;
    forall i | 0 <= i < |ref|
      ensures In(ref[i], Ref)
    {
      if i < |q| {
        assert ref[i] == q[i];
      } else if i > |q| {
        assert ref[i] == c[i - |q| - 1];
      }
    }
    var call := Call(f, ref);
    FindCallOfText(call);
    assert CallText(call) == f + "(" + q + "." + c + ")";
    assert '.' !in q by { assert forall i :: 0 <= i < |q| ==> In(q[i], Word); }
    assert '.' !in c by { assert forall i :: 0 <= i < |c| ==> In(c[i], Word); }
    SplitOnOne(q, c, '.');
    assert SplitReference(ref) == Ok((Some(q), c));
  }

  /** `f(c)` with an undotted `c`: no table, no alias, column `f(c)` as written. */
  lemma BindCallUnqualified(f: string, c: string, tableAliases: map<string, string>)
    requires f != [] && All(f, Word) && c != [] && All(c, Word)
    ensures BindColumn(f + "(" + c + ")", tableAliases) == Ok(Binding(None, None, f + "(" + c + ")"))
  {
    assert All(c, Ref) by { assert forall i :: 0 <= i < |c| ==> In(c[i], Word); }
    var call := Call(f, c);
    FindCallOfText(call);
    assert CallText(call) == f + "(" + c + ")";
    assert '.' !in c by { assert forall i :: 0 <= i < |c| ==> In(c[i], Word); }
    assert SplitReference(c) == Ok((None, c));
  }

  /**
   * The binding fails exactly when the reference it unpacks holds more than
   * one dot: the reference inside a recognised call, the whole text otherwise.
   */
  lemma BindFailsOnDots(column: string, tableAliases: map<string, string>)
    ensures FindCall(column).None? ==>
      (BindColumn(column, tableAliases).Err? <==> multiset(column)['.'] >= 2)
    ensures FindCall(column).Some? ==>
      (BindColumn(column, tableAliases).Err? <==> multiset(FindCall(column).value.ref)['.'] >= 2)
  {
    if FindCall(column).Some? {
      FindCallInside(column);
      SplitReferenceShape(FindCall(column).value.ref);
    } else {
      SplitReferenceShape(column);
    }
  }

  // ---------------------------------------------------------------------------
  // extract_columns

  /** The binding of each match's column text, in order. */
  function BindResults(ms: seq<ColumnMatch>, tableAliases: map<string, string>): seq<Result<Binding, UnpackError>>
  {
    seq(|ms|, i requires 0 <= i < |ms| => BindColumn(ms[i].column, tableAliases))
  }

  /** The records of `ms` bound in order; the first failing column's error otherwise. */
  function BindAll(ms: seq<ColumnMatch>, tableAliases: map<string, string>): Result<seq<Binding>, UnpackError>
  {
    Collect(BindResults(ms, tableAliases))
  }

  /**
   * One record per match, in order, each the binding of the match's column
   * text alone (the `AS` name is never read); or the error of the first
   * column that fails.
   */
  lemma BindAllPointwise(ms: seq<ColumnMatch>, tableAliases: map<string, string>)
    ensures BindAll(ms, tableAliases).Ok? <==>
      forall i :: 0 <= i < |ms| ==> BindColumn(ms[i].column, tableAliases).Ok?
    ensures BindAll(ms, tableAliases).Ok? ==>
      |BindAll(ms, tableAliases).value| == |ms|
      && forall i :: 0 <= i < |ms| ==>
        BindAll(ms, tableAliases).value[i] == BindColumn(ms[i].column, tableAliases).value
    ensures BindAll(ms, tableAliases).Err? ==>
      exists i :: 0 <= i < |ms| && BindColumn(ms[i].column, tableAliases) == Err(BindAll(ms, tableAliases).error)
        && forall j :: 0 <= j < i ==> BindColumn(ms[j].column, tableAliases).Ok?
  {
    var rs := BindResults(ms, tableAliases);
    CollectPointwise(rs);
    assert forall i :: 0 <= i < |ms| ==> rs[i] == BindColumn(ms[i].column, tableAliases);
  }

  /**
   * `extract_columns`: no records when the SELECT clause was not found;
   * otherwise each column match of the clause bound in order, stopping at
   * the first column whose reference cannot be unpacked.
   */
  method ExtractColumns(selectClause: Option<string>, tableAliases: map<string, string>)
    returns (r: Result<seq<Binding>, UnpackError>)
    ensures selectClause.None? ==> r == Ok([])
    ensures selectClause.Some? ==> r == BindAll(ColumnMatches(selectClause.value), tableAliases)
  {
    if selectClause.None? {
      return Ok([]);
    }
    var matches := ColumnMatches(selectClause.value);
    ghost var results := BindResults(matches, tableAliases);
    var columnList := [];
    for i := 0 to |matches|
      invariant Collect(results[..i]) == Ok(columnList)
    {
      // `column.strip()` changes nothing: a match holds no whitespace.
      var column := matches[i].column;
      assert results[..i + 1][..i] == results[..i];
      assert results[i] == BindColumn(column, tableAliases);
      var call := if '(' in column && ')' in column then FindCall(column) else None;
      if call.Some? {
        var split := SplitReference(call.value.ref);
        if split.Err? {
          CollectErrorPersists(results, i + 1);
          return Err(split.error);
        }
        var (q, col) := split.value;
        columnList := columnList + [Binding(Resolve(tableAliases, q), q, call.value.name + "(" + col + ")")];
        continue;
      }
      var split := SplitReference(column);
      if split.Err? {
        CollectErrorPersists(results, i + 1);
        return Err(split.error);
      }
      var (q, col) := split.value;
      columnList := columnList + [Binding(Resolve(tableAliases, q), q, col)];
    }
    assert results[..|results|] == results;
    r := Ok(columnList);
  }

  // ---------------------------------------------------------------------------
  // The re-map comprehension

  /** `[(aliases.get(alias, alias), alias, column) for table, alias, column in rows]`. */
  function Remap(tableAliases: map<string, string>, rows: seq<Binding>): seq<Binding>
  {
    seq(|rows|, i requires 0 <= i < |rows| => Binding(Resolve(tableAliases, rows[i].alias), rows[i].alias, rows[i].column))
  }

  /**
   * The re-map changes nothing in what `extract_columns` returns: every
   * record's table was already computed from its alias through the same map.
   */
  lemma RemapOfExtracted(selectClause: string, tableAliases: map<string, string>)
    requires BindAll(ColumnMatches(selectClause), tableAliases).Ok?
    ensures Remap(tableAliases, BindAll(ColumnMatches(selectClause), tableAliases).value)
         == BindAll(ColumnMatches(selectClause), tableAliases).value
  {
    var ms := ColumnMatches(selectClause);
    var rows := BindAll(ms, tableAliases).value;
    BindAllPointwise(ms, tableAliases);
    assert forall i :: 0 <= i < |rows| ==> BoundThrough(tableAliases, rows[i]) by {
      forall i | 0 <= i < |rows| ensures BoundThrough(tableAliases, rows[i]) {
        assert rows[i] == BindColumn(ms[i].column, tableAliases).value;
      }
    }
  }
}

=== FILE: strings.dfy ===
/**
 * The Python string behaviour both extractors lean on: the character classes
 * of `str.isspace` and of the regular expressions (`\s`, `\w`, `[\w.]`,
 * `[\w.()]`), `str.upper` as far as keyword comparison needs it,
 * `str.split(sep)` and the whitespace-splitting `str.split()`.
 */
module Strings {

  /** `str.isspace()`: the separators of `str.split()` and the class `\s` of a `str` pattern. */
  predicate IsSpace(c: char)
  {
    var n := c as int;
    9 <= n <= 13 || 28 <= n <= 32 || n == 0x85 || n == 0xA0 || n == 0x1680
    || 0x2000 <= n <= 0x200A || n == 0x2028 || n == 0x2029 || n == 0x202F
    || n == 0x205F || n == 0x3000
  }

  /** The class `\w`, over ASCII. */
  predicate IsWordChar(c: char)
  {
    'a' <= c <= 'z' || 'A' <= c <= 'Z' || '0' <= c <= '9' || c == '_'
  }

  /** The character classes the extractors scan runs of. */
  datatype CharClass = Space | NonSpace | Word | Ref | Column

  predicate In(c: char, k: CharClass)
  {
    match k
    case Space => IsSpace(c)
    case NonSpace => !IsSpace(c)
    case Word => IsWordChar(c)                                      // \w
    case Ref => IsWordChar(c) || c == '.'                           // [\w.]
    case Column => IsWordChar(c) || c == '.' || c == '(' || c == ')' // [\w.()]
  }

  predicate All(s: string, k: CharClass)
  {
    forall i :: 0 <= i < |s| ==> In(s[i], k)
  }

  /** Length of the longest prefix of `s` drawn from `k`: what a greedy `k*` consumes. */
  function Run(s: string, k: CharClass): (n: nat)
    ensures n <= |s|
  {
    if s != [] && In(s[0], k) then 1 + Run(s[1..], k) else 0
  }

  /** A run is drawn from its class and stops at the first character outside it. */
  lemma {:induction false} RunStops(s: string, k: CharClass)
    ensures All(s[..Run(s, k)], k)
    ensures Run(s, k) < |s| ==> !In(s[Run(s, k)], k)
  {
    if s != [] && In(s[0], k) {
      RunStops(s[1..], k);
      var n := Run(s, k);
      assert forall i :: 1 <= i < n ==> s[..n][i] == s[1..][..n - 1][i - 1];
    }
  }

  /** A run stops exactly where its class stops. */
  lemma RunOfConcat(a: string, b: string, k: CharClass)
    requires All(a, k)
    requires b == [] || !In(b[0], k)
    ensures Run(a + b, k) == |a|
  {
    var s := a + b;
    var n := Run(s, k);
    RunStops(s, k);
    assert forall i :: 0 <= i < |a| ==> s[i] == a[i];
    assert forall j :: |a| < j <= |s| ==> s[..j][|a|] == b[0];
  }

  /** A string drawn wholly from `k` is one run. */
  lemma RunOfAll(s: string, k: CharClass)
    requires All(s, k)
    ensures Run(s, k) == |s|
  {
    RunStops(s, k);
  }

  /**
   * `str.upper()` on the characters whose upper case is an ASCII letter:
   * the ASCII lower-case letters, dotless i (U+0131) and long s (U+017F).
   * Every other character is kept; its Python upper case is never an ASCII
   * letter, so comparisons with an ASCII keyword come out the same.
   */
  function UpperChar(c: char): char
  {
    if 'a' <= c <= 'z' then (c as int - 32) as char
    else if c as int == 0x131 then 'I'
    else if c as int == 0x17F then 'S'
    else c
  }

  function Upper(s: string): (u: string)
    ensures |u| == |s|
    ensures forall i :: 0 <= i < |s| ==> u[i] == UpperChar(s[i])
  {
    if s == [] then [] else [UpperChar(s[0])] + Upper(s[1..])
  }

  /** Text already in upper case (ASCII capitals and spaces) is its own upper case. */
  lemma UpperOfUpper(s: string)
    requires forall i :: 0 <= i < |s| ==> 'A' <= s[i] <= 'Z' || s[i] == ' '
    ensures Upper(s) == s
  {
    assert forall i :: 0 <= i < |s| ==> Upper(s)[i] == s[i];
  }

  // ---------------------------------------------------------------------------
  // str.split(sep) with a one-character separator

  function IndexOf(s: string, c: char): (i: nat)
    requires c in s
    ensures i < |s| && s[i] == c && c !in s[..i]
  {
    if s[0] == c then 0
    else
      var j := IndexOf(s[1..], c);
      assert s[..j + 1] == [s[0]] + s[1..][..j];
      j + 1
  }

  /** `s.split(c)`: the pieces between the occurrences of `c`, empty pieces included. */
  function SplitOn(s: string, c: char): seq<string>
    decreases |s|
  {
    if c in s then
      var i := IndexOf(s, c);
      [s[..i]] + SplitOn(s[i + 1..], c)
    else [s]
  }

  /** `c.join(parts)`. */
  function JoinWith(parts: seq<string>, c: char): string
  {
    if parts == [] then ""
    else if |parts| == 1 then parts[0]
    else parts[0] + [c] + JoinWith(parts[1..], c)
  }

  /**
   * `split` and `join` are inverse: the pieces put back together with the
   * separator give the string again, no piece contains the separator, and
   * there is one piece more than there are separators.
   */
  lemma {:induction false} SplitOnJoin(s: string, c: char)
    ensures JoinWith(SplitOn(s, c), c) == s
    ensures forall p :: p in SplitOn(s, c) ==> c !in p
    ensures |SplitOn(s, c)| == multiset(s)[c] + 1
    decreases |s|
  {
    if c in s {
      var i := IndexOf(s, c);
      var rest := s[i + 1..];
      SplitOnJoin(rest, c);
      var parts := SplitOn(s, c);
      assert parts == [s[..i]] + SplitOn(rest, c);
      assert JoinWith(parts, c) == s[..i] + [c] + rest;
      assert s == s[..i] + [c] + rest;
      assert multiset(s)[c] == multiset(s[..i])[c] + 1 + multiset(rest)[c] by {
        assert multiset(s) == multiset(s[..i]) + multiset([c]) + multiset(rest);
      }
    }
  }

  /** The first piece is the text before the first separator. */
  lemma SplitOnFirst(s: string, c: char)
    requires c in s
    ensures |SplitOn(s, c)| >= 2
    ensures var p := SplitOn(s, c)[0]; |p| < |s| && s[..|p|] == p && s[|p|] == c && c !in p
  {
    SplitOnJoin(s, c);
  }

  /** The last piece is the text after the last separator. */
  lemma {:induction false} SplitOnLast(s: string, c: char)
    requires c in s
    ensures var parts := SplitOn(s, c); var p := parts[|parts| - 1];
      |p| < |s| && s[|s| - |p|..] == p && s[|s| - |p| - 1] == c && c !in p
    decreases |s|
  {
    var i := IndexOf(s, c);
    var rest := s[i + 1..];
    assert SplitOn(s, c) == [s[..i]] + SplitOn(rest, c);
    if c in rest {
      SplitOnLast(rest, c);
      var parts := SplitOn(rest, c);
      var p := parts[|parts| - 1];
      assert SplitOn(s, c)[|SplitOn(s, c)| - 1] == p;
      assert s[|s| - |p|..] == rest[|rest| - |p|..];
      assert s[|s| - |p| - 1] == rest[|rest| - |p| - 1];
    } else {
      assert SplitOn(s, c) == [s[..i], rest];
      assert s[|s| - |rest|..] == rest;
    }
  }

  /** A string with exactly one separator splits into the text before it and the text after it. */
  lemma SplitOnOne(a: string, b: string, c: char)
    requires c !in a && c !in b
    ensures SplitOn(a + [c] + b, c) == [a, b]
  {
    var s := a + [c] + b;
    assert s[|a|] == c;
    assert forall j :: 0 <= j < |a| ==> s[j] == a[j];
    var i := IndexOf(s, c);
    assert forall j :: |a| < j <= |s| ==> s[..j][|a|] == c;
    assert s[..i] == a;
    assert s[i + 1..] == b;
  }

  // ---------------------------------------------------------------------------
  // str.split() without a separator

  /** `s.split()`: the maximal runs of non-whitespace, leading and trailing whitespace dropped. */
  function Words(s: string): seq<string>
    decreases |s|
  {
    if s == [] then []
    else if IsSpace(s[0]) then Words(s[1..])
    else
      var n := Run(s, NonSpace);
      [s[..n]] + Words(s[n..])
  }

  /** A word as `split()` produces it: non-empty and free of whitespace. */
  predicate IsWord(w: string)
  {
    w != [] && All(w, NonSpace)
  }

  /** Every piece of `split()` is a word, and there are none exactly when the text is blank. */
  lemma {:induction false} WordsShape(s: string)
    ensures forall w :: w in Words(s) ==> IsWord(w)
    ensures Words(s) == [] <==> All(s, Space)
    decreases |s|
  {
    if s == [] {
    } else if IsSpace(s[0]) {
      WordsShape(s[1..]);
      if !All(s[1..], Space) {
        var i :| 0 <= i < |s[1..]| && !IsSpace(s[1..][i]);
        assert !IsSpace(s[i + 1]);
      }
    } else {
      var n := Run(s, NonSpace);
      RunStops(s, NonSpace);
      WordsShape(s[n..]);
    }
  }

  /** Words joined by single spaces. */
  function Spaced(ws: seq<string>): string
  {
    if ws == [] then ""
    else if |ws| == 1 then ws[0]
    else ws[0] + " " + Spaced(ws[1..])
  }

  /** Splitting words joined by single spaces gives the words back. */
  lemma {:induction false} WordsOfSpaced(ws: seq<string>)
    requires forall w :: w in ws ==> IsWord(w)
    ensures Words(Spaced(ws)) == ws
  {
    if ws == [] {
    } else {
      var w := ws[0];
      assert IsWord(w) by { assert w in ws; }
      assert forall i :: 0 <= i < |w| ==> In(w[i], NonSpace);
      if |ws| == 1 {
        RunOfAll(w, NonSpace);
        assert w[..|w|] == w;
        assert Words(w[|w|..]) == [];
      } else {
        var rest := Spaced(ws[1..]);
        var s := w + " " + rest;
        assert s == w + (" " + rest);
        RunOfConcat(w, " " + rest, NonSpace);
        assert s[..|w|] == w;
        assert s[|w|..] == " " + rest;
        assert (" " + rest)[1..] == rest;
        WordsOfSpaced(ws[1..]);
      }
    }
  }
}

=== FILE: token_extractor.dfy ===
/**
 * The token strategy (`sqlparser.py`): `sqlparse` splits the query into
 * statements of classified tokens; `extract_sql_info` scans each SELECT
 * statement twice, first for the tables after `FROM` (and after a JOIN
 * keyword), then for the column references, and resolves each reference's
 * qualifier through the tables seen so far.
 *
 * The classification itself belongs to `sqlparse` and is an input here: a
 * statement is its type and its top-level tokens.
 */
module TokenExtractor {
  import opened Bindings
  import opened Strings

  /**
   * A top-level token as the scan sees it: an `Identifier`, an
   * `IdentifierList` with the values of its identifiers (`get_identifiers()`),
   * or any other token (keyword, whitespace, punctuation, ...). Every token
   * has its text, `token.value`.
   */
  datatype Token =
    | Identifier(value: string)
    | IdentifierList(value: string, items: seq<string>)
    | Plain(value: string)

  /** A parsed statement: `get_type()` and its top-level tokens. */
  datatype Statement = Statement(kind: string, tokens: seq<Token>)

  // ---------------------------------------------------------------------------
  // The two string helpers

  /**
   * `extract_table_alias`: the whitespace-separated words of an identifier;
   * one word is a table without alias, more words are the table and the last
   * word as alias (an `AS` or any middle word is dropped), and no word at all
   * gives nothing.
   */
  function ExtractTableAlias(text: string): (Option<string>, Option<string>)
  {
    var words := Words(text);
    if |words| == 1 then (Some(words[0]), None)
    else if |words| > 1 then (Some(words[0]), Some(words[|words| - 1]))
    else (None, None)
  }

  /** Blank text gives nothing; otherwise the table, and the alias if any, are words. */
  lemma TableAliasShape(text: string)
    ensures var r := ExtractTableAlias(text);
      && (r.0.None? <==> All(text, Space))
      && (r.0.None? ==> r.1.None?)
      && (r.0.Some? ==> IsWord(r.0.value))
      && (r.1.Some? ==> IsWord(r.1.value))
  {
    WordsShape(text);
  }

  /** Words written with single spaces come back as (first word, last word when there are two or more). */
  lemma TableAliasOfSpaced(ws: seq<string>)
    requires |ws| >= 1 && forall w :: w in ws ==> IsWord(w)
    ensures ExtractTableAlias(Spaced(ws)) == (Some(ws[0]), if |ws| == 1 then None else Some(ws[|ws| - 1]))
  {
    WordsOfSpaced(ws);
    TableAliasOfWords(Spaced(ws), ws);
  }

  lemma TableAliasOfWords(text: string, ws: seq<string>)
    requires |ws| >= 1 && Words(text) == ws
    ensures ExtractTableAlias(text) == (Some(ws[0]), if |ws| == 1 then None else Some(ws[|ws| - 1]))
  {
  }

  /**
   * `extract_column_alias`: a dotted value gives its last segment as column
   * and its first segment as qualifier; any middle segment is dropped. A value
   * without a dot is the column itself, unqualified.
   */
  function ExtractColumnAlias(text: string): (string, Option<string>)
  {
    if '.' in text then
      var parts := SplitOn(text, '.');
      (parts[|parts| - 1], Some(parts[0]))
    else (text, None)
  }

  /**
   * The column never holds a dot. A dotted value has its qualifier before
   * its first dot and its column after its last dot; an undotted value is
   * the column itself.
   */
  lemma ColumnAliasShape(text: string)
    ensures var r := ExtractColumnAlias(text);
      && '.' !in r.0
      && ('.' !in text ==> r == (text, None))
      && ('.' in text ==>
            && r.1.Some? && '.' !in r.1.value
            && |r.1.value| < |text| && text[..|r.1.value|] == r.1.value && text[|r.1.value|] == '.'
            && |r.0| < |text| && text[|text| - |r.0|..] == r.0 && text[|text| - |r.0| - 1] == '.')
  {
    if '.' in text {
      SplitOnFirst(text, '.');
      SplitOnLast(text, '.');
    }
  }

  /** A reference `q.c` written without further dots comes back as column `c` qualified by `q`. */
  lemma ColumnAliasOfQualified(q: string, c: string)
    requires '.' !in q && '.' !in c
    ensures ExtractColumnAlias(q + "." + c) == (c, Some(q))
  {
    SplitOnOne(q, c, '.');
  }

  // ---------------------------------------------------------------------------
  // The table scan

  /**
   * The dictionary entry an identifier contributes: `alias or table_name`
   * mapped to `table_name`, when `table_name` is present and non-empty.
   */
  function TableEntry(text: string): Option<(string, string)>
  {
    var (table, alias) := ExtractTableAlias(text);
    if table.Some? && table.value != "" then
      Some((if alias.Some? && alias.value != "" then alias.value else table.value, table.value))
    else None
  }

  /** Blank text contributes no entry; any other text contributes a word mapped to a word. */
  lemma TableEntryShape(text: string)
    ensures TableEntry(text).Some? <==> !All(text, Space)
    ensures TableEntry(text).Some? ==> IsWord(TableEntry(text).value.0) && IsWord(TableEntry(text).value.1)
  {
    TableAliasShape(text);
  }

  /** An identifier written as `table` or `table [AS] alias` maps its last word to its first. */
  lemma TableEntryOfSpaced(ws: seq<string>)
    requires |ws| >= 1 && forall w :: w in ws ==> IsWord(w)
    ensures TableEntry(Spaced(ws)) == Some((ws[|ws| - 1], ws[0]))
  {
    TableAliasOfSpaced(ws);
    assert IsWord(ws[0]) by { assert ws[0] in ws; }
    assert IsWord(ws[|ws| - 1]) by { assert ws[|ws| - 1] in ws; }
    TableEntryOfAlias(Spaced(ws), ws[0], if |ws| == 1 then None else Some(ws[|ws| - 1]));
  }

  lemma TableEntryOfAlias(text: string, table: string, alias: Option<string>)
    requires ExtractTableAlias(text) == (Some(table), alias)
    requires table != "" && (alias.Some? ==> alias.value != "")
    ensures TableEntry(text) == Some((if alias.Some? then alias.value else table, table))
  {
  }

  function AddTable(aliases: map<string, string>, text: string): map<string, string>
  {
    match TableEntry(text)
    case None => aliases
    case Some((key, table)) => aliases[key := table]
  }

  /** The entries of an identifier list, stored in list order. */
  function AddTables(aliases: map<string, string>, items: seq<string>): map<string, string>
  {
    if items == [] then aliases
    else AddTable(AddTables(aliases, items[..|items| - 1]), items[|items| - 1])
  }

  predicate IsJoinKeyword(value: string)
  {
    Upper(value) in ["JOIN", "INNER JOIN", "LEFT JOIN", "RIGHT JOIN", "FULL JOIN"]
  }

  /** Upper-casing keeps the length, so only a four-character text can read `FROM`. */
  lemma NotFrom(value: string)
    requires |value| != 4
    ensures Upper(value) != "FROM"
  {
  }

  /** The JOIN keywords are four to ten characters long. */
  lemma NotJoin(value: string)
    requires |value| < 4
    ensures !IsJoinKeyword(value)
  {
  }

  /** A token whose text reads `FROM` in any case. */
  predicate IsFrom(token: Token)
  {
    Upper(token.value) == "FROM"
  }

  /** The variables of the table loop: `from_seen` and `alias_map`. */
  datatype ScanState = ScanState(fromSeen: bool, aliases: map<string, string>)

  /**
   * One turn of the table loop at index `i`. A token whose text is `FROM`
   * (in any case) switches the scan on; after that, identifier lists and
   * identifiers add their entries, and a JOIN keyword adds the entry of the
   * token right after it when that token is an identifier. `lookahead`
   * switches that last branch off, which the source never does; it serves
   * to show what the branch contributes.
   */
  function Step(tokens: seq<Token>, i: nat, st: ScanState, lookahead: bool): ScanState
    requires i < |tokens|
  {
    var token := tokens[i];
    if IsFrom(token) then ScanState(true, st.aliases)
    else if !st.fromSeen then st
    else
      match token
      case IdentifierList(_, items) => ScanState(true, AddTables(st.aliases, items))
      case Identifier(value) => ScanState(true, AddTable(st.aliases, value))
      case Plain(value) =>
        if lookahead && IsJoinKeyword(value) && i + 1 < |tokens| && tokens[i + 1].Identifier? then
          ScanState(true, AddTable(st.aliases, tokens[i + 1].value))
        else st
  }

  /** The loop variables after the first `n` turns. */
  function ScanUpTo(tokens: seq<Token>, n: nat, lookahead: bool): ScanState
    requires n <= |tokens|
  {
    if n == 0 then ScanState(false, map[])
    else Step(tokens, n - 1, ScanUpTo(tokens, n - 1, lookahead), lookahead)
  }

  /** The `alias_map` of one statement. */
  function StatementAliases(tokens: seq<Token>): map<string, string>
  {
    ScanUpTo(tokens, |tokens|, true).aliases
  }

  /** Without a `FROM` token the scan never starts and the statement names no table. */
  lemma {:induction false} NoFromNoAliases(tokens: seq<Token>, n: nat)
    requires n <= |tokens|
    requires forall i :: 0 <= i < n ==> !IsFrom(tokens[i])
    ensures ScanUpTo(tokens, n, true) == ScanState(false, map[])
  {
    if n > 0 {
      NoFromNoAliases(tokens, n - 1);
    }
  }

  predicate HasFrom(tokens: seq<Token>)
  {
    exists i :: 0 <= i < |tokens| && IsFrom(tokens[i])
  }

  /**
   * The identifier texts the table scan stores, in order: those of every
   * identifier and identifier list after the first `FROM` token, except a
   * token that itself reads `FROM`.
   */
  function Targets(tokens: seq<Token>): seq<string>
  {
    if tokens == [] then []
    else
      var prefix, last := tokens[..|tokens| - 1], tokens[|tokens| - 1];
      Targets(prefix) + (if HasFrom(prefix) && !IsFrom(last) then TokenTexts(last) else [])
  }

  lemma HasFromSnoc(tokens: seq<Token>, n: nat)
    requires 0 < n <= |tokens|
    ensures HasFrom(tokens[..n]) <==> HasFrom(tokens[..n - 1]) || IsFrom(tokens[n - 1])
  {
    var prefix := tokens[..n - 1];
    assert forall i :: 0 <= i < n - 1 ==> tokens[..n][i] == prefix[i];
    assert tokens[..n][n - 1] == tokens[n - 1];
  }

  /**
   * Without the JOIN lookahead, the table scan is exactly the storing of its
   * targets in order, and it is switched on once a `FROM` token has passed.
   */
  lemma {:induction false} ScanTargets(tokens: seq<Token>, n: nat)
    requires n <= |tokens|
    ensures ScanUpTo(tokens, n, false) == ScanState(HasFrom(tokens[..n]), AddTables(map[], Targets(tokens[..n])))
  {
    if n == 0 {
      assert tokens[..0] == [];
    } else {
      ScanTargets(tokens, n - 1);
      HasFromSnoc(tokens, n);
      TargetsSnoc(tokens, n);
      var last := tokens[n - 1];
      var targets := Targets(tokens[..n - 1]);
      var st := ScanUpTo(tokens, n - 1, false);
      if IsFrom(last) || !HasFrom(tokens[..n - 1]) {
        assert targets + [] == targets;
        StepSkips(tokens, n - 1, st);
      } else {
        AddTablesConcat(map[], targets, TokenTexts(last));
        StepStores(tokens, n - 1, st.aliases);
      }
    }
  }

  /** A `FROM` token only switches the scan on; before it, nothing is stored. */
  lemma StepSkips(tokens: seq<Token>, i: nat, st: ScanState)
    requires i < |tokens| && (IsFrom(tokens[i]) || !st.fromSeen)
    ensures Step(tokens, i, st, false) == ScanState(st.fromSeen || IsFrom(tokens[i]), st.aliases)
  {
  }

  lemma TargetsSnoc(tokens: seq<Token>, n: nat)
    requires 0 < n <= |tokens|
    ensures Targets(tokens[..n]) == Targets(tokens[..n - 1])
      + (if HasFrom(tokens[..n - 1]) && !IsFrom(tokens[n - 1]) then TokenTexts(tokens[n - 1]) else [])
  {
    assert tokens[..n][..n - 1] == tokens[..n - 1];
  }

  /** Once the scan is on, a token that does not read `FROM` stores its identifier texts. */
  lemma StepStores(tokens: seq<Token>, i: nat, aliases: map<string, string>)
    requires i < |tokens| && !IsFrom(tokens[i])
    ensures Step(tokens, i, ScanState(true, aliases), false) == ScanState(true, AddTables(aliases, TokenTexts(tokens[i])))
  {
    if tokens[i].Identifier? {
      assert [tokens[i].value][..0] == [];
    }
  }

  /**
   * `alias_map` is the targets of the statement stored in order, provided no
   * identifier reads `FROM` (the one case where the JOIN lookahead stores
   * what the identifier branch skips).
   */
  lemma StatementAliasesOfTargets(tokens: seq<Token>)
    requires forall i :: 0 <= i < |tokens| && tokens[i].Identifier? ==> !IsFrom(tokens[i])
    ensures StatementAliases(tokens) == AddTables(map[], Targets(tokens))
  {
    JoinLookaheadRedundant(tokens);
    ScanTargets(tokens, |tokens|);
    assert tokens[..|tokens|] == tokens;
  }

  lemma {:induction false} AddTablesConcat(aliases: map<string, string>, a: seq<string>, b: seq<string>)
    ensures AddTables(aliases, a + b) == AddTables(AddTables(aliases, a), b)
    decreases |b|
  {
    if b == [] {
      assert a + b == a;
    } else {
      var b' := b[..|b| - 1];
      assert (a + b)[..|a + b| - 1] == a + b';
      assert (a + b)[|a + b| - 1] == b[|b| - 1];
      AddTablesConcat(aliases, a, b');
    }
  }

  /** The keys after storing `items`: those already present and those of the items that have an entry. */
  lemma {:induction false} AddTablesKeys(aliases: map<string, string>, items: seq<string>)
    ensures AddTables(aliases, items).Keys
         == aliases.Keys + set i | 0 <= i < |items| && TableEntry(items[i]).Some? :: TableEntry(items[i]).value.0
  {
    if items != [] {
      var n := |items| - 1;
      var prefix := items[..n];
      AddTablesKeys(aliases, prefix);
      assert forall i :: 0 <= i < n ==> prefix[i] == items[i];
      var old_ := set i | 0 <= i < n && TableEntry(prefix[i]).Some? :: TableEntry(prefix[i]).value.0;
      var all := set i | 0 <= i < |items| && TableEntry(items[i]).Some? :: TableEntry(items[i]).value.0;
      if TableEntry(items[n]).Some? {
        assert all == old_ + {TableEntry(items[n]).value.0};
      } else {
        assert all == old_;
      }
    }
  }

  /** Last write wins: a key holds the table of the last item whose entry has that key. */
  lemma {:induction false} AddTablesLastWins(aliases: map<string, string>, items: seq<string>, i: nat)
    requires i < |items| && TableEntry(items[i]).Some?
    requires forall j :: i < j < |items| && TableEntry(items[j]).Some? ==>
      TableEntry(items[j]).value.0 != TableEntry(items[i]).value.0
    ensures TableEntry(items[i]).value.0 in AddTables(aliases, items)
    ensures AddTables(aliases, items)[TableEntry(items[i]).value.0] == TableEntry(items[i]).value.1
  {
    var n := |items| - 1;
    if i < n {
      var prefix := items[..n];
      assert forall j :: i <= j < n ==> prefix[j] == items[j];
      AddTablesLastWins(aliases, prefix, i);
    }
  }

  lemma {:induction false} AddTablesSourced(base: map<string, string>, items: seq<string>)
    ensures forall k :: k in AddTables(base, items) ==>
      (k in base && base[k] == AddTables(base, items)[k])
      || exists t :: t in items && TableEntry(t) == Some((k, AddTables(base, items)[k]))
  {
    if items != [] {
      var prefix := items[..|items| - 1];
      AddTablesSourced(base, prefix);
      forall t | t in prefix
        ensures t in items
      {
      }
    }
  }

  /**
   * The JOIN lookahead adds nothing: the identifier it looks at is the next
   * token, which the identifier branch then stores again under the same key.
   * This holds unless that identifier's own text is `FROM`, the one case where
   * the identifier branch skips it.
   */
  lemma {:induction false} JoinLookaheadRedundant(tokens: seq<Token>)
    requires forall i :: 0 <= i < |tokens| && tokens[i].Identifier? ==> !IsFrom(tokens[i])
    ensures StatementAliases(tokens) == ScanUpTo(tokens, |tokens|, false).aliases
  {
    ScanPending(tokens, |tokens|);
  }

  /** The scans with and without the lookahead differ at most by the entry the lookahead just added. */
  lemma {:induction false} ScanPending(tokens: seq<Token>, n: nat)
    requires n <= |tokens|
    requires forall i :: 0 <= i < |tokens| && tokens[i].Identifier? ==> !IsFrom(tokens[i])
    ensures var a, b := ScanUpTo(tokens, n, true), ScanUpTo(tokens, n, false);
      a.fromSeen == b.fromSeen
      && (a.aliases == b.aliases || (n < |tokens| && tokens[n].Identifier? && a.fromSeen
          && a.aliases == AddTable(b.aliases, tokens[n].value)))
  {
    if n > 0 {
      ScanPending(tokens, n - 1);
      var a, b := ScanUpTo(tokens, n - 1, true), ScanUpTo(tokens, n - 1, false);
      if a.aliases != b.aliases {
        var v := tokens[n - 1].value;
        assert Step(tokens, n - 1, a, true).aliases == AddTable(a.aliases, v);
        assert Step(tokens, n - 1, b, false).aliases == AddTable(b.aliases, v);
        AddTableTwice(b.aliases, v);
      }
    }
  }

  /** Storing the same identifier twice is storing it once. */
  lemma AddTableTwice(aliases: map<string, string>, text: string)
    ensures AddTable(AddTable(aliases, text), text) == AddTable(aliases, text)
  {
  }

  // ---------------------------------------------------------------------------
  // The column scan

  /** The record of one identifier text, when its column part is non-empty. */
  function ColumnRecord(tables: map<string, string>, text: string): seq<Binding>
  {
    var (column, qualifier) := ExtractColumnAlias(text);
    if column != "" then [Binding(Resolve(tables, qualifier), qualifier, column)] else []
  }

  function ItemsRecords(tables: map<string, string>, items: seq<string>): seq<Binding>
  {
    if items == [] then []
    else ItemsRecords(tables, items[..|items| - 1]) + ColumnRecord(tables, items[|items| - 1])
  }

  /** The identifier texts a token stands for: its own text, its list's items, or none. */
  function TokenTexts(token: Token): seq<string>
  {
    match token
    case IdentifierList(_, items) => items
    case Identifier(value) => [value]
    case Plain(_) => []
  }

  /** The identifier texts of a run of top-level tokens, in token order and list order. */
  function Texts(tokens: seq<Token>): seq<string>
  {
    if tokens == [] then []
    else Texts(tokens[..|tokens| - 1]) + TokenTexts(tokens[|tokens| - 1])
  }

  /** The records of one statement: the record of every identifier text, in order. */
  function StatementRecords(tables: map<string, string>, tokens: seq<Token>): seq<Binding>
  {
    ItemsRecords(tables, Texts(tokens))
  }

  /** What a record of the column scan looks like. */
  predicate WellBound(tables: map<string, string>, b: Binding)
  {
    BoundThrough(tables, b) && b.column != "" && '.' !in b.column
    && (b.alias.Some? ==> '.' !in b.alias.value)
  }

  lemma ColumnRecordBound(tables: map<string, string>, text: string)
    ensures forall b :: b in ColumnRecord(tables, text) ==> WellBound(tables, b)
  {
    ColumnAliasShape(text);
  }

  lemma {:induction false} ItemsRecordsBound(tables: map<string, string>, items: seq<string>)
    ensures forall b :: b in ItemsRecords(tables, items) ==> WellBound(tables, b)
  {
    if items != [] {
      ItemsRecordsBound(tables, items[..|items| - 1]);
      ColumnRecordBound(tables, items[|items| - 1]);
    }
  }

  /**
   * Every record of a statement has a non-empty, dot-free column, and its
   * table is what its qualifier resolves to through the tables in effect.
   */
  lemma StatementRecordsBound(tables: map<string, string>, tokens: seq<Token>)
    ensures forall b :: b in StatementRecords(tables, tokens) ==> WellBound(tables, b)
  {
    ItemsRecordsBound(tables, Texts(tokens));
  }

  /** The records of consecutive token runs follow one another: records come out in token order. */
  lemma StatementRecordsConcat(tables: map<string, string>, a: seq<Token>, b: seq<Token>)
    ensures StatementRecords(tables, a + b) == StatementRecords(tables, a) + StatementRecords(tables, b)
  {
    TextsConcat(a, b);
    ItemsRecordsConcat(tables, Texts(a), Texts(b));
  }

  /** The records of consecutive list items follow one another: records come out in list order. */
  lemma {:induction false} ItemsRecordsConcat(tables: map<string, string>, a: seq<string>, b: seq<string>)
    ensures ItemsRecords(tables, a + b) == ItemsRecords(tables, a) + ItemsRecords(tables, b)
    decreases |b|
  {
    if b == [] {
      assert a + b == a;
    } else {
      var b' := b[..|b| - 1];
      assert (a + b)[..|a + b| - 1] == a + b';
      assert (a + b)[|a + b| - 1] == b[|b| - 1];
      ItemsRecordsConcat(tables, a, b');
    }
  }

  lemma {:induction false} TextsConcat(a: seq<Token>, b: seq<Token>)
    ensures Texts(a + b) == Texts(a) + Texts(b)
    decreases |b|
  {
    if b == [] {
      assert a + b == a;
    } else {
      var b' := b[..|b| - 1];
      assert (a + b)[..|a + b| - 1] == a + b';
      assert (a + b)[|a + b| - 1] == b[|b| - 1];
      TextsConcat(a, b');
    }
  }

  lemma TextsStep(tokens: seq<Token>, k: nat)
    requires k < |tokens|
    ensures Texts(tokens[..k + 1]) == Texts(tokens[..k]) + TokenTexts(tokens[k])
  {
    assert tokens[..k + 1][..k] == tokens[..k];
  }

  // ---------------------------------------------------------------------------
  // All statements

  /** The `columns` list and the `tables` dictionary. */
  datatype Info = Info(columns: seq<Binding>, tables: map<string, string>)

  /**
   * `extract_sql_info` over the first statements: a SELECT statement adds
   * its `alias_map` to `tables`, then emits its records resolved through
   * `tables`; any other statement changes nothing.
   */
  function InfoOf(statements: seq<Statement>): Info
  {
    if statements == [] then Info([], map[])
    else
      var before := InfoOf(statements[..|statements| - 1]);
      var statement := statements[|statements| - 1];
      if statement.kind != "SELECT" then before
      else
        var tables := before.tables + StatementAliases(statement.tokens);
        Info(before.columns + StatementRecords(tables, statement.tokens), tables)
  }

  /** `extract_sql_info`: the statements in order, each SELECT scanned for its tables and then its columns. */
  method ExtractSqlInfo(statements: seq<Statement>) returns (columns: seq<Binding>)
    ensures columns == InfoOf(statements).columns
  {
    columns := [];
    var tables: map<string, string> := map[];
    for s := 0 to |statements|
      invariant Info(columns, tables) == InfoOf(statements[..s])
    {
      assert statements[..s + 1][..s] == statements[..s];
      var statement := statements[s];
      if statement.kind != "SELECT" {
        continue;
      }
      var aliasMap := ScanTables(statement.tokens);
      tables := tables + aliasMap;
      var records := ScanColumns(tables, statement.tokens);
      columns := columns + records;
    }
    assert statements[..|statements|] == statements;
  }

  /** The table loop of one statement: `from_seen`, `alias_map` and the JOIN lookahead. */
  method ScanTables(tokens: seq<Token>) returns (aliasMap: map<string, string>)
    ensures aliasMap == StatementAliases(tokens)
  {
    var fromSeen := false;
    aliasMap := map[];
    for i := 0 to |tokens|
      invariant ScanState(fromSeen, aliasMap) == ScanUpTo(tokens, i, true)
    {
      var token := tokens[i];
      if IsFrom(token) {
        fromSeen := true;
        continue;
      }
      if fromSeen {
        match token {
          case IdentifierList(_, items) =>
            for j := 0 to |items|
              invariant aliasMap == AddTables(ScanUpTo(tokens, i, true).aliases, items[..j])
            {
              assert items[..j + 1][..j] == items[..j];
              aliasMap := StoreTable(aliasMap, items[j]);
            }
            assert items[..|items|] == items;
          case Identifier(value) =>
            aliasMap := StoreTable(aliasMap, value);
          case Plain(value) =>
            if IsJoinKeyword(value) {
              var next: Option<Token> := if i + 1 < |tokens| then Some(tokens[i + 1]) else None;
              if next.Some? && next.value.Identifier? {
                aliasMap := StoreTable(aliasMap, next.value.value);
              }
            }
        }
      }
    }
  }

  /** `table_name, alias = extract_table_alias(identifier)` and, when there is a table name, its entry. */
  method StoreTable(aliasMap: map<string, string>, text: string) returns (updated: map<string, string>)
    ensures updated == AddTable(aliasMap, text)
  {
    updated := aliasMap;
    var (tableName, alias) := ExtractTableAlias(text);
    if tableName.Some? && tableName.value != "" {
      updated := updated[if alias.Some? && alias.value != "" then alias.value else tableName.value := tableName.value];
    }
  }

  /** The column loop of one statement: a record per identifier with a column name, in token order. */
  method ScanColumns(tables: map<string, string>, tokens: seq<Token>) returns (records: seq<Binding>)
    ensures records == StatementRecords(tables, tokens)
  {
    records := [];
    for i := 0 to |tokens|
      invariant records == StatementRecords(tables, tokens[..i])
    {
      TextsStep(tokens, i);
      ItemsRecordsConcat(tables, Texts(tokens[..i]), TokenTexts(tokens[i]));
      match tokens[i] {
        case IdentifierList(_, items) =>
          var listed := ScanItems(tables, items);
          records := records + listed;
        case Identifier(value) =>
          var record := EmitColumn(tables, value);
          records := records + record;
          assert [value][..0] == [];
        case Plain(_) =>
      }
    }
    assert tokens[..|tokens|] == tokens;
  }

  /** The records of an identifier list's members, in list order. */
  method ScanItems(tables: map<string, string>, items: seq<string>) returns (records: seq<Binding>)
    ensures records == ItemsRecords(tables, items)
  {
    records := [];
    for j := 0 to |items|
      invariant records == ItemsRecords(tables, items[..j])
    {
      assert items[..j + 1][..j] == items[..j];
      var record := EmitColumn(tables, items[j]);
      records := records + record;
    }
    assert items[..|items|] == items;
  }

  /** `column_name, table_alias = extract_column_alias(identifier)` and its record, when there is a column name. */
  method EmitColumn(tables: map<string, string>, text: string) returns (record: seq<Binding>)
    ensures record == ColumnRecord(tables, text)
  {
    record := [];
    var (columnName, tableAlias) := ExtractColumnAlias(text);
    if columnName != "" {
      var actualTable := Resolve(tables, tableAlias);
      record := [Binding(actualTable, tableAlias, columnName)];
    }
  }

  /** Only SELECT statements. */
  function Selects(statements: seq<Statement>): seq<Statement>
  {
    if statements == [] then []
    else
      var rest := Selects(statements[..|statements| - 1]);
      if statements[|statements| - 1].kind == "SELECT" then rest + [statements[|statements| - 1]] else rest
  }

  /** Statements of any other type contribute neither tables nor records. */
  lemma {:induction false} NonSelectIgnored(statements: seq<Statement>)
    ensures InfoOf(statements) == InfoOf(Selects(statements))
  {
    if statements != [] {
      var prefix := statements[..|statements| - 1];
      var last := statements[|statements| - 1];
      NonSelectIgnored(prefix);
      if last.kind == "SELECT" {
        var s := Selects(prefix) + [last];
        assert s[..|s| - 1] == Selects(prefix);
      }
    }
  }

  /**
   * `tables` is never reset between statements: after a run of statements it
   * holds the earlier statements' entries overwritten by the later ones'.
   */
  lemma {:induction false} TablesAccumulate(a: seq<Statement>, b: seq<Statement>)
    ensures InfoOf(a + b).tables == InfoOf(a).tables + InfoOf(b).tables
    decreases |b|
  {
    if b == [] {
      assert a + b == a;
    } else {
      var b' := b[..|b| - 1];
      assert (a + b)[..|a + b| - 1] == a + b';
      assert (a + b)[|a + b| - 1] == b[|b| - 1];
      TablesAccumulate(a, b');
    }
  }

  /** Every record of the whole scan has a non-empty, dot-free column and a table exactly when it has a qualifier. */
  lemma {:induction false} RecordsShape(statements: seq<Statement>)
    ensures forall b :: b in InfoOf(statements).columns ==>
      b.column != "" && '.' !in b.column && (b.table.Some? <==> b.alias.Some?)
  {
    if statements != [] {
      var prefix := statements[..|statements| - 1];
      RecordsShape(prefix);
      var last := statements[|statements| - 1];
      if last.kind == "SELECT" {
        var tables := InfoOf(prefix).tables + StatementAliases(last.tokens);
        StatementRecordsBound(tables, last.tokens);
      }
    }
  }

  // ---------------------------------------------------------------------------
  // A query worked through

  /** A text with a space or a comma in it does not read `FROM`, whatever its case. */
  lemma NotFromAt(value: string, i: nat)
    requires i < |value| && (value[i] == ' ' || value[i] == ',')
    ensures Upper(value) != "FROM"
  {
    FromLetters();
    NotLettersAt(value, i, "FROM");
  }

  lemma FromLetters()
    ensures forall j :: 0 <= j < |"FROM"| ==> 'A' <= "FROM"[j] <= 'Z'
  {
  }

  /** Upper-casing keeps spaces and commas, so such a text never reads as a word of capitals. */
  lemma NotLettersAt(value: string, i: nat, w: string)
    requires i < |value| && (value[i] == ' ' || value[i] == ',')
    requires forall j :: 0 <= j < |w| ==> 'A' <= w[j] <= 'Z'
    ensures Upper(value) != w
  {
    assert Upper(value)[i] == value[i];
  }

  /**
   * `SELECT q.c1, q.c2 FROM table q` as `sqlparse` groups it: keywords and
   * whitespace, the select list as one identifier list, and the table with
   * its alias as one identifier.
   */
  function AliasedSelect(table: string, q: string, c1: string, c2: string): seq<Token>
  {
    [Plain("SELECT"), Plain(" "), IdentifierList(q + "." + c1 + ", " + q + "." + c2, [q + "." + c1, q + "." + c2]),
     Plain(" "), Plain("FROM"), Plain(" "), Identifier(table + " " + q)]
  }

  /** The table scan of the query: nothing before `FROM`, then the alias of the one identifier. */
  lemma AliasedSelectAliases(table: string, q: string, c1: string, c2: string)
    requires IsWord(table) && IsWord(q)
    ensures StatementAliases(AliasedSelect(table, q, c1, c2)) == map[q := table]
  {
    var toks := AliasedSelect(table, q, c1, c2);
    AliasedSelectPrefix(table, q, c1, c2, toks);
    UpperFrom();
    ScanFrom(toks, 5);
    NotFrom(toks[5].value);
    NotJoin(toks[5].value);
    ScanSkip(toks, 6);
    var ident := table + " " + q;
    assert ident[|table|] == ' ';
    NotFromAt(ident, |table|);
    ScanIdentifier(toks, 7);
    assert Spaced([table, q]) == ident;
    TableEntryOfSpaced([table, q]);
  }

  lemma AliasedSelectPrefix(table: string, q: string, c1: string, c2: string, toks: seq<Token>)
    requires toks == AliasedSelect(table, q, c1, c2)
    ensures ScanUpTo(toks, 4, true) == ScanState(false, map[])
  {
    forall i | 0 <= i < 4
      ensures !IsFrom(toks[i])
    {
      if i == 2 {
        var list := toks[2].value;
        assert list == q + "." + c1 + ", " + q + "." + c2;
        assert list[|q| + 1 + |c1|] == ',';
        NotFromAt(list, |q| + 1 + |c1|);
      } else {
        NotFrom(toks[i].value);
      }
    }
    NoFromNoAliases(toks, 4);
  }

  lemma UpperFrom()
    ensures Upper("FROM") == "FROM"
  {
    UpperOfUpper("FROM");
  }

  lemma ScanFrom(tokens: seq<Token>, n: nat)
    requires 0 < n <= |tokens| && IsFrom(tokens[n - 1])
    ensures ScanUpTo(tokens, n, true) == ScanState(true, ScanUpTo(tokens, n - 1, true).aliases)
  {
  }

  lemma ScanSkip(tokens: seq<Token>, n: nat)
    requires 0 < n <= |tokens| && tokens[n - 1].Plain?
    requires !IsFrom(tokens[n - 1]) && !IsJoinKeyword(tokens[n - 1].value)
    ensures ScanUpTo(tokens, n, true) == ScanUpTo(tokens, n - 1, true)
  {
  }

  lemma ScanIdentifier(tokens: seq<Token>, n: nat)
    requires 0 < n <= |tokens| && tokens[n - 1].Identifier? && !IsFrom(tokens[n - 1])
    requires ScanUpTo(tokens, n - 1, true).fromSeen
    ensures ScanUpTo(tokens, n, true)
      == ScanState(true, AddTable(ScanUpTo(tokens, n - 1, true).aliases, tokens[n - 1].value))
  {
  }

  /** The column scan of the query through the alias. */
  lemma AliasedSelectRecords(table: string, q: string, c1: string, c2: string)
    requires '.' !in table && '.' !in q && '.' !in c1 && '.' !in c2 && c1 != "" && c2 != ""
    ensures StatementRecords(map[q := table], AliasedSelect(table, q, c1, c2)) == [
      Binding(Some(table), Some(q), c1),
      Binding(Some(table), Some(q), c2),
      Binding(None, None, table + " " + q)]
  {
    var tables := map[q := table];
    var toks := AliasedSelect(table, q, c1, c2);
    var items, ident := toks[2].items, toks[6].value;
    ListThenIdentifierTexts(toks, items, ident);
    ItemsRecordsConcat(tables, items, [ident]);
    QualifiedItemsRecords(tables, table, q, c1, c2, items);
    UnqualifiedRecord(tables, ident);
    assert [ident][..0] == [];
  }

  /** Seven tokens of which the third is an identifier list, the last an identifier and the rest plain. */
  lemma ListThenIdentifierTexts(toks: seq<Token>, items: seq<string>, ident: string)
    requires |toks| == 7 && toks[2].IdentifierList? && toks[2].items == items && toks[6] == Identifier(ident)
    requires toks[0].Plain? && toks[1].Plain? && toks[3].Plain? && toks[4].Plain? && toks[5].Plain?
    ensures Texts(toks) == items + [ident]
  {
    FirstThree(toks, items);
    NextThree(toks, items);
    TextsStep(toks, 6);
    assert toks[..7] == toks;
  }

  lemma FirstThree(toks: seq<Token>, items: seq<string>)
    requires |toks| == 7 && toks[2].IdentifierList? && items == toks[2].items
    requires toks[0].Plain? && toks[1].Plain?
    ensures Texts(toks[..3]) == items
  {
    assert toks[..0] == [];
    TextsStep(toks, 0);
    TextsStep(toks, 1);
    TextsStep(toks, 2);
  }

  lemma NextThree(toks: seq<Token>, items: seq<string>)
    requires |toks| == 7 && Texts(toks[..3]) == items
    requires toks[3].Plain? && toks[4].Plain? && toks[5].Plain?
    ensures Texts(toks[..6]) == items
  {
    TextsStep(toks, 3);
    TextsStep(toks, 4);
    TextsStep(toks, 5);
  }

  /** The records of the select list `q.c1, q.c2`, both resolved through the alias. */
  lemma QualifiedItemsRecords(tables: map<string, string>, table: string, q: string, c1: string, c2: string, items: seq<string>)
    requires tables == map[q := table] && items == [q + "." + c1, q + "." + c2]
    requires '.' !in q && '.' !in c1 && '.' !in c2 && c1 != "" && c2 != ""
    ensures ItemsRecords(tables, items) == [Binding(Some(table), Some(q), c1), Binding(Some(table), Some(q), c2)]
  {
    assert Resolve(tables, Some(q)) == Some(table);
    QualifiedRecord(tables, items[0], q, c1);
    QualifiedRecord(tables, items[1], q, c2);
    ItemsRecordsConcat(tables, [items[0]], [items[1]]);
    assert items == [items[0]] + [items[1]];
    assert [items[0]][..0] == [] && [items[1]][..0] == [];
  }

  /** A reference `q.c` gives one record, resolved through its qualifier. */
  lemma QualifiedRecord(tables: map<string, string>, text: string, q: string, c: string)
    requires '.' !in q && '.' !in c && c != "" && text == q + "." + c
    ensures ColumnRecord(tables, text) == [Binding(Resolve(tables, Some(q)), Some(q), c)]
  {
    ColumnAliasOfQualified(q, c);
  }

  lemma UnqualifiedRecord(tables: map<string, string>, text: string)
    requires '.' !in text && text != ""
    ensures ColumnRecord(tables, text) == [Binding(None, None, text)]
  {
  }

  /**
   * The whole query: both columns resolve through the alias to the table,
   * and the table identifier after `FROM`, which the column scan visits as
   * well, comes out as a record of its own with no table and no qualifier.
   */
  lemma AliasedSelectColumns(table: string, q: string, c1: string, c2: string)
    requires IsWord(table) && IsWord(q) && '.' !in table && '.' !in q
    requires '.' !in c1 && '.' !in c2 && c1 != "" && c2 != ""
    ensures InfoOf([Statement("SELECT", AliasedSelect(table, q, c1, c2))]).columns == [
      Binding(Some(table), Some(q), c1),
      Binding(Some(table), Some(q), c2),
      Binding(None, None, table + " " + q)]
  {
    AliasedSelectAliases(table, q, c1, c2);
    AliasedSelectRecords(table, q, c1, c2);
    var stmts := [Statement("SELECT", AliasedSelect(table, q, c1, c2))];
    assert stmts[..0] == [];
    assert map[] + map[q := table] == map[q := table];
  }
}
